=== FILE: README.md ===
# IDEF0 diagram converter, draw.io bridge and logger — a Dafny model

This project models three pieces of the vibe-idef0 application.

- **The IDEF0 converter** (`IDEF0Converter` in `backend/services/converter.py`) turns a diagram's
  activity nodes into a draw.io (mxGraph) document. The document has:
  - a fixed `mxGraphModel` page frame;
  - a `root` element holding the root cell `"0"` and the layer `"layer_1"`;
  - one vertex cell per node, in node order.

  The node at sequence index `i` sits at `(120 + 180 i, 100 + 120 i)` and is 140 by 80. Its text is
  its node number, a line break and its label when it has a (non-empty) node number, and just the
  label otherwise. The document is modelled as an element tree (module `CellTree`), the structure
  `xml.etree.ElementTree` builds before serialising it. Numbers are written in decimal as Python's
  `str` writes them (module `Decimal`).

  `ReadDocument`, a reader that inverts the converter, reads such a document back. Converting and then
  reading gives back every node's id, full label and cascade box, in order.
- **The draw.io bridge service** (`DrawioService` in
  `frontend/src/services/drawio/drawio.service.js`) is modelled as pure functions over a
  `Service` state. The state holds the iframe, the readiness flag, the handler registry and a
  counter that gives each `once` wrapper its own identity. The model covers:
  - `on`, `off` and `once`;
  - the dispatch of `handleMessage`, with JavaScript's `forEach` over the live array: the length
    is read once, and a `once` wrapper splices itself out while the loop runs;
  - `init`, whose one-time callback makes the service ready when the "init" event arrives, and
    its timeout;
  - the readiness guards of `loadDiagram` and `exportDiagram`;
  - `sendMessage` without an iframe;
  - `destroy`.

  Every operation keeps an invariant (`Valid`): each `once` wrapper in the registry was created
  before the counter's current value, sits in one list only and only once there. Under it, a
  one-time handler that has run is registered under no type afterwards, and no later `once`
  recreates it.
- **The logger** (`frontend/src/utils/logger.js`) is modelled through:
  - the `LOG_LEVELS` table;
  - the constructor's fall-back to `info` for an unknown level name;
  - the four methods, each of which prints a tagged line exactly when its level is at or above
    the threshold.

Modules: `Wrappers` (Option/Result), `Decimal`, `CellTree`, `Converter`, `DrawioService`, `Logger`.

What the converter's code does, and so what the model does:

- `convert_to_xml` never reads `data.edges`, so the model emits no edge cells
  (`Converter.OnlyNodesMatter`). No edge routing or arrow anchoring is present in the code.
- The converter validates nothing (no check of unique ids or of edge endpoints), and
  `backend/schemas.py` defines no diagram types, so the model accepts any node sequence.

## Model

| member | source | states |
|---|---|---|
| Converter.ConvertRoundTrip | backend/services/converter.py:14-59 | Reading the converted document back yields exactly one vertex per node, in node order, each carrying the node's id, its full label and the cascade box of its index; nothing else is read as a vertex |
| Converter.ConvertToXml | backend/services/converter.py:14-28 | The document is an `mxGraphModel` carrying the fixed page attributes, with a single `root` child whose cells are the root cell, then the layer cell, then one vertex cell per node, the vertex of node `i` in position `i + 2` |
| Converter.NodeElements | backend/services/converter.py:27-28 | The node loop emits one vertex per node, in order, the `k`-th node's vertex built with index `first + k` |
| Converter.NodeElementsRoundTrip | backend/services/converter.py:27-28 | The vertices the loop emits read back as the placed nodes, by induction on the node sequence |
| Converter.NodeElementRoundTrip | backend/services/converter.py:34-59 | One node's vertex cell reads back as its id, its full label and its cascade box |
| Converter.GeometryRoundTrip | backend/services/converter.py:53-59 | A geometry element (x, y, width, height in decimal, `as="geometry"`) reads back as the box it was written from |
| Converter.GeometryElement | backend/services/converter.py:53-59 | The geometry element never repeats an attribute name |
| Converter.NodeElement | backend/services/converter.py:34-59 | The vertex cell and its geometry child never repeat an attribute name |
| Converter.VertexAttributes | backend/services/converter.py:45-51 | The vertex of node `i` has as id exactly the decimal text `str` writes for the node's id, which reads back as that id; parent `layer_1`, `vertex="1"`, the fixed vertex style and the full label |
| Converter.VertexGeometry | backend/services/converter.py:7-12 | The geometry of the node at index `i` is at x = 120 + 180 i, y = 100 + 120 i, 140 wide and 80 high |
| Converter.Layout | backend/services/converter.py:36-37 | Every box is 140 by 80, and the node's index is recovered from either coordinate: x lies on the 180-step grid from 120 and y on the 120-step grid from 100, both at step `index` |
| Converter.LayoutCascade | backend/services/converter.py:36-37 | The first node sits at (StartX, StartY); each next node is one OffsetX right and one OffsetY down; the size never changes |
| Converter.LayoutStrictlyIncreasing | backend/services/converter.py:36-37 | A later index is strictly further right and strictly further down, so no two nodes share a position |
| Converter.FullLabel | backend/services/converter.py:41-43 | The shown text equals the label exactly when the node has no non-empty node number |
| Converter.FullLabelShape | backend/services/converter.py:41-43 | The label is shown unchanged exactly when the node has no non-empty number; otherwise the text is the number, a line break, then the label |
| Converter.FrameIsConstant | backend/services/converter.py:15-20 | Every document has the same fourteen page attributes, among them gridSize 10, pageScale 1, an 827 by 1169 page and a white background |
| Converter.BaseCellsFirst | backend/services/converter.py:22-25 | The cells open with the root cell (id `0`, no parent) and the layer (id `layer_1`, parent `0`), neither a vertex, and every later cell is a vertex |
| Converter.DistinctNodeIdsGiveDistinctCellIds | backend/services/converter.py:46 | Nodes with different ids get vertex cells with different `id` attributes |
| Converter.OnlyNodesMatter | backend/services/converter.py:27-28 | Diagrams with the same nodes convert to the same document, whatever their names and edges |
| Converter.ConvertIsWellFormed | backend/services/converter.py:15-59 | No element of the document repeats an attribute name |
| Converter.SampleDiagram | backend/test_run.py:6-21 | The three sample activities A1 to A3 become the vertices `A1\nRegister Order` at (120,100), `A2\nCheck Availability` at (300,220) and `A3\nShip Goods` at (480,340), each 140 by 80 |
| Decimal.IntToStringRoundTrip | backend/services/converter.py:46 | Parsing the decimal text `str` writes for an integer, negative ones included, gives back that integer |
| Decimal.IntToStringInjective | backend/services/converter.py:46 | Different integers get different decimal texts |
| Decimal.IntToString | backend/services/converter.py:46 | The text `str` writes for an integer is never empty and starts with '-' exactly when the integer is negative; after the sign come one or more digits, with a leading zero only for zero itself, so the text is never padded |
| Decimal.NatToString | backend/services/converter.py:54-57 | The decimal text of a natural number is non-empty, all digits, and has a leading zero only for zero itself |
| DrawioService.On | frontend/src/services/drawio/drawio.service.js:131-136 | `on` appends the handler to its type's list, creating the list for a new type, and leaves every other type unchanged |
| DrawioService.Off | frontend/src/services/drawio/drawio.service.js:156-162 | `off` of a handler that is not registered changes nothing; it never adds or removes a type, and other types keep their lists |
| DrawioService.OffRemovesFirstOccurrence | frontend/src/services/drawio/drawio.service.js:156-162 | `off` of a registered handler removes its first occurrence, keeps the rest in order, and drops exactly one registration |
| DrawioService.HandlersFor | frontend/src/services/drawio/drawio.service.js:157 | A type with an entry yields that very list, even when it is empty, since an array is truthy and `|| []` does not replace it; a type with no entry yields the empty list |
| DrawioService.IndexOf | frontend/src/services/drawio/drawio.service.js:158 | The index is -1 exactly when the handler is absent; otherwise it is the handler's first position |
| DrawioService.RemoveFirst | frontend/src/services/drawio/drawio.service.js:158-160 | Removing a handler that is absent changes nothing; otherwise the list is one shorter, and it never gains a handler it did not hold |
| DrawioService.RemoveFirstCount | frontend/src/services/drawio/drawio.service.js:158-160 | The splice takes out exactly one copy of the handler and keeps every other handler's count |
| DrawioService.Subscribe | frontend/src/services/drawio/drawio.service.js:131-136 | A client's `on` appends its function to the type's list, leaves other types' lists alone, keeps the iframe, the readiness and the wrapper counter, and keeps the service valid |
| DrawioService.Unsubscribe | frontend/src/services/drawio/drawio.service.js:156-162 | A client's `off` removes the first occurrence of the handler from the type's list, changes nothing when it is absent, leaves other types alone, keeps the iframe, the readiness and the wrapper counter, and keeps the service valid |
| DrawioService.Once | frontend/src/services/drawio/drawio.service.js:143-149 | `once` appends a wrapper to the type's list, leaves the other lists, the iframe and the readiness alone and moves the wrapper counter on by one; in a valid service the wrapper is new, registered under no type before, and the service stays valid |
| DrawioService.OnThenOffRestores | frontend/src/services/drawio/drawio.service.js:131-162 | Registering a handler that was not registered and then unregistering it restores the type's list, and the whole registry when the type already existed |
| DrawioService.Dispatch | frontend/src/services/drawio/drawio.service.js:66-68 | An unregistered event type runs nothing; dispatch runs only handlers registered for the type, never adds or removes a type and leaves every other type's list alone |
| DrawioService.DispatchRunsListenersInOrder | frontend/src/services/drawio/drawio.service.js:66-68 | Without one-time handlers, dispatch runs the type's handlers in registration order and changes no list |
| DrawioService.DispatchKeepsListeners | frontend/src/services/drawio/drawio.service.js:66-68 | Dispatch keeps the registration count of every plain handler and only ever removes handlers from the type's list |
| DrawioService.ForEach | frontend/src/services/drawio/drawio.service.js:68 | The live iteration runs only handlers that were in the array when it started |
| DrawioService.ForEachRanWrappersGone | frontend/src/services/drawio/drawio.service.js:68 | In an array where no wrapper repeats, every wrapper the iteration runs has spliced itself out by its end |
| DrawioService.DispatchedWrappersAreGone | frontend/src/services/drawio/drawio.service.js:66-68 | In a list where no wrapper repeats, every one-time wrapper a dispatch runs is no longer in its type's list afterwards |
| DrawioService.DispatchKeepsValid | frontend/src/services/drawio/drawio.service.js:66-68 | Dispatch keeps the wrapper invariant: every wrapper older than the counter, each registered once and under one type |
| DrawioService.RanWrapperSkipsNextEvent | frontend/src/services/drawio/drawio.service.js:143-149 | In a valid service, every one-time wrapper an event runs is afterwards registered under no type, older than the counter (so no later `once` recreates it), and not run by the next event, whatever it is |
| DrawioService.OnceHandlerRunsOnce | frontend/src/services/drawio/drawio.service.js:143-149 | A one-time handler added behind plain listeners does run on the next event of its type, after them, and is then gone: the following event runs only the listeners |
| DrawioService.OnceWrapperSkipsNextHandler | frontend/src/services/drawio/drawio.service.js:68 | For a type whose list is a one-time wrapper followed by one other handler, the wrapper removes itself during iteration, so the other handler does not run on that event and stays registered |
| DrawioService.Init | frontend/src/services/drawio/drawio.service.js:24-40 | `init` fails with "Iframe element is required" exactly when there is no iframe; otherwise it stores the iframe, appends a one-time wrapper around the ready callback to the "init" list, leaves every other list and the readiness alone; in a valid service that wrapper is new and the service stays valid |
| DrawioService.MarkReady | frontend/src/services/drawio/drawio.service.js:42-48 | The init timeout leaves the service ready and changes nothing else |
| DrawioService.HandleMessage | frontend/src/services/drawio/drawio.service.js:57-69 | Events from anything but the iframe, non-draw.io messages, messages with an empty event name and events before `init` are ignored; an accepted event dispatches its type, so only that type's list can change; the service becomes ready exactly when it was ready or the handlers that ran include the ready callback of `init`; and the service stays valid |
| DrawioService.SendMessage | frontend/src/services/drawio/drawio.service.js:75-84 | Nothing is posted exactly when there is no iframe; otherwise the action is posted to the iframe |
| DrawioService.LoadDiagram | frontend/src/services/drawio/drawio.service.js:99-106 | Loading fails with "Draw.io is not ready" exactly when the service is not ready; otherwise it posts a load of the XML |
| DrawioService.ExportDiagram | frontend/src/services/drawio/drawio.service.js:113-124 | Exporting fails with "Draw.io is not ready" exactly when the service is not ready; otherwise it appends a one-time "export" handler, leaves other lists alone, keeps the iframe and the readiness, moves the wrapper counter on by one, keeps the service valid and posts an export request in the given format, "xml" when none is given |
| DrawioService.NewService | frontend/src/services/drawio/drawio.service.js:11-17 | A new service has no iframe, is not ready, has no handlers and is valid |
| DrawioService.NewServiceNotReady | frontend/src/services/drawio/drawio.service.js:11-17 | A freshly constructed service refuses both loading and exporting |
| DrawioService.ReadyServiceLoads | frontend/src/services/drawio/drawio.service.js:24-51 | After `init` with an iframe and then the init timeout, loading posts the diagram to that iframe |
| DrawioService.InitEventMakesReady | frontend/src/services/drawio/drawio.service.js:24-40 | After `init` with an iframe, the "init" event from that iframe runs the listeners already there and then the ready callback, which leaves the service ready, so loading posts the diagram to that iframe |
| DrawioService.Destroy | frontend/src/services/drawio/drawio.service.js:167-174 | `destroy` clears every handler, forgets the iframe, is no longer ready, keeps the wrapper counter (so no later `once` reuses an old wrapper's identity) and leaves a valid service |
| DrawioService.DestroyedServiceIsInert | frontend/src/services/drawio/drawio.service.js:167-174 | After `destroy` no event runs any handler, and loading and exporting fail |
| Logger.LogLevel | frontend/src/utils/logger.js:7-13 | A name has a rank exactly when it is one of the five level names, and the rank is that name's position in the order debug, info, warn, error, none |
| Logger.Rank | frontend/src/utils/logger.js:21-39 | Each method compares the threshold against its own level name's entry in the table |
| Logger.LevelsTotallyOrdered | frontend/src/utils/logger.js:7-13 | The five level names rank debug 0, info 1, warn 2, error 3, none 4, and no two names share a rank |
| Logger.NewLogger | frontend/src/utils/logger.js:15-18 | The threshold is the configured name's rank, or info's rank when the name is unknown; it never exceeds the rank of none |
| Logger.Emit | frontend/src/utils/logger.js:20-42 | A method prints exactly when the threshold is at or below its own rank, on its own console channel, as its tag followed by the message |
| Logger.ConfiguredLevelPrintsFromThere | frontend/src/utils/logger.js:15-42 | Configuring a method's level name makes exactly that method and the more severe ones print |
| Logger.EmitMonotone | frontend/src/utils/logger.js:20-42 | Whatever prints at one severity also prints at every more severe one |
| Logger.NoneSilencesAll | frontend/src/utils/logger.js:12 | With the level `none`, none of the four methods prints |
| Logger.UnknownLevelActsAsInfo | frontend/src/utils/logger.js:17 | An unknown level name behaves exactly like `info` for every method and message |
| Logger.TagIdentifiesSeverity | frontend/src/utils/logger.js:20-42 | The tag at the head of a printed line tells which of the four methods printed it |

## Left out

- Serialisation: `ET.indent` and `ET.tostring` are not modelled. The model stops at the element tree, and `ReadDocument` reads that tree rather than the text.
- Edge cells, edge routing and ICOM anchoring are not modelled, because the converter's code emits none of them.
- The `data=SDiagramData` default argument (a class used as a default) is not modelled: the converter is always given a diagram.
- Node and diagram validation (unique ids, resolvable edge endpoints) is not modelled. The converter does none, and the schema types it imports are not defined in `backend/schemas.py`.
- The HTTP layer (`backend/main.py`) is not modelled: it serves stored `<variant>.xml` files from the data directory by variant name, or a 404, and does not call the converter. Its settings (`backend/config.py`) only declare that directory. The converter's only caller in the repository is `backend/test_run.py`, whose sample diagram `SampleDiagram` covers.
- The `useDiagram` composable is not modelled: it calls the service's `loadDiagram` and `exportDiagram`. The API client (`client.js`, `diagram.service.js`) is not modelled either: it fetches the diagram XML from the backend and never touches the service.
- The configuration (`config/index.js`: the init timeout's length and the source of the log level) is not modelled; the log level name is a parameter of `NewLogger`. The event names "init" and "export" are the `DRAWIO_EVENTS` values of `config/constants.js`.
- Message encoding in `messages.js` (`createMessage`, `parseMessage`, `isDrawioEvent`, `getEventType`) is not modelled. `handleMessage` takes the already-parsed event type, or none when the message is not a draw.io event. The message source is an abstract frame identity.
- Browser effects are not modelled: `window.addEventListener`/`removeEventListener`, `postMessage`, `setTimeout`/`clearTimeout` and Promises. A post is the `Posted` value returned.
- The ready callback that `init` registers is modelled only in its `isReady = true`; its `clearTimeout`, its `configure` call and the resolution of the promise are not modelled. The init timeout is the separate step `MarkReady`, taken whenever the environment lets it fire.
- `configure` and the logging calls inside the service are not modelled; they only write to the console.
- DrawioService.Dispatch: handler bodies are abstract and handlers return normally. A plain listener does not change the registry, and a `once` wrapper only removes itself; a handler that calls `on` or `off` on its own type during dispatch is not modelled. A handler that throws, which would end the iteration and leave its wrapper registered, is not modelled.
- DrawioService.ForEach: its own contract states only that nothing but the array's handlers runs; what the iteration removes is stated by `DispatchKeepsListeners`, `ForEachRanWrappersGone` and `DispatchKeepsValid`.
- Converter.GeometryElement: its own contract states only well-formedness; what a reader finds in it is stated by `GeometryRoundTrip`.
- Converter.NodeElement: its own contract states only well-formedness; its id, text, style, parent and box are stated by `NodeElementRoundTrip` and `VertexAttributes`.
- The `data = {}` default of `sendMessage` is not modelled: the posted payload is part of the action (`Load(xml)`, `Export(format)`).
- DrawioService.HandleMessage: `getEventType` turns an empty event name into `null`; the model dispatches nothing for it, which assumes no handler is ever registered under `null`.
- Logger.NewLogger: names inherited from `Object.prototype` (such as `toString`), which `LOG_LEVELS[...]` would also find, are treated as unknown.
- Logger.Emit: the extra `...args` passed through to the console are not modelled; only the tagged message line is.
- Integers are unbounded. Python's integers are unbounded too, so node ids and positions need no wrap-around.

=== FILE: cell_tree.dfy ===
/**
 * An abstract XML element tree, the shape `xml.etree.ElementTree` builds before it is
 * serialised: a tag, the attributes in insertion order, and the child elements.
 */
module CellTree {
  import opened Wrappers

  datatype Attribute = Attribute(name: string, value: string)

  datatype Element = Element(tag: string, attributes: seq<Attribute>, children: seq<Element>) {

    /** The value of this element's attribute `name`, as `Element.get` reads it. */
    function Get(name: string): Option<string> {
      Lookup(attributes, name)
    }
  }

  /** The value of the first attribute called `name`. */
  function Lookup(attributes: seq<Attribute>, name: string): Option<string>
  {
    if |attributes| == 0 then None
    else if attributes[0].name == name then Some(attributes[0].value)
    else Lookup(attributes[1..], name)
  }

  /** An attribute is found when no earlier attribute has its name. */
  lemma {:induction false} LookupFinds(attributes: seq<Attribute>, i: nat)
    requires i < |attributes|
    requires forall j :: 0 <= j < i ==> attributes[j].name != attributes[i].name
    ensures Lookup(attributes, attributes[i].name) == Some(attributes[i].value)
    decreases i
  {
    if i > 0 {
      LookupFinds(attributes[1..], i - 1);
    }
  }

  /** A name no attribute carries is not found. */
  lemma {:induction false} LookupMisses(attributes: seq<Attribute>, name: string)
    requires forall j :: 0 <= j < |attributes| ==> attributes[j].name != name
    ensures Lookup(attributes, name) == None
    decreases |attributes|
  {
    if |attributes| > 0 {
      LookupMisses(attributes[1..], name);
    }
  }

  /** No two attributes of the list share a name (a dictionary's keys). */
  predicate DistinctNames(attributes: seq<Attribute>) {
    forall i, j :: 0 <= i < j < |attributes| ==> attributes[i].name != attributes[j].name
  }

  /** With distinct names, every attribute is found under its own name. */
  lemma LookupDistinct(attributes: seq<Attribute>, i: nat)
    requires DistinctNames(attributes)
    requires i < |attributes|
    ensures Lookup(attributes, attributes[i].name) == Some(attributes[i].value)
  {
    LookupFinds(attributes, i);
  }

  /** Every element of the tree has distinct attribute names, as XML requires. */
  predicate WellFormed(e: Element) {
    && DistinctNames(e.attributes)
    && forall c :: c in e.children ==> WellFormed(c)
  }
}

=== FILE: converter.dfy ===
/**
 * The IDEF0-to-mxGraph converter: every activity node becomes one vertex cell of a
 * draw.io document, placed on a diagonal cascade by its position in the node
 * sequence, under a fixed page frame and the two base cells every mxGraph model has.
 */
module Converter {
  import opened Wrappers
  import opened Decimal
  import opened CellTree

  // Layout constants of the converter.
  const BlockWidth: int := 140
  const BlockHeight: int := 80
  const StartX: int := 120
  const StartY: int := 100
  const OffsetX: int := 180
  const OffsetY: int := 120

  /** The visual style shared by every activity box. */
  const VertexStyle: string := "rounded=0;whiteSpace=wrap;html=1;shadow=0;"
  /** Id of the absolute root cell. */
  const RootCellId: string := "0"
  /** Id of the default layer, the parent of every vertex. */
  const LayerId: string := "layer_1"

  /** An activity box: caller-supplied id, display text, optional decomposition code ("A1"). */
  datatype Node = Node(id: int, labelText: string, nodeNumber: Option<string>)

  /**
   * The converter's input. The edge record is not part of this model, so edges are of
   * any type `E`: the converter never looks at them.
   */
  datatype DiagramData<E> = DiagramData(name: string, nodes: seq<Node>, edges: seq<E>)

  /** A node's box on the page. */
  datatype Box = Box(x: int, y: int, width: int, height: int)

  /** The page and grid presentation attributes of the `mxGraphModel` element. */
  const GraphModelAttributes: seq<Attribute> := [
    Attribute("dx", "1000"), Attribute("dy", "1000"), Attribute("grid", "1"),
    Attribute("gridSize", "10"), Attribute("guides", "1"), Attribute("tooltips", "1"),
    Attribute("connect", "1"), Attribute("arrows", "1"), Attribute("fold", "1"),
    Attribute("page", "1"), Attribute("pageScale", "1"), Attribute("pageWidth", "827"),
    Attribute("pageHeight", "1169"), Attribute("background", "#ffffff")
  ]

  /** The absolute root cell: id "0", no parent. */
  const RootCell: Element := Element("mxCell", [Attribute("id", RootCellId)], [])

  /** The default layer, parented to the root cell. */
  const LayerCell: Element := Element("mxCell", [Attribute("id", LayerId), Attribute("parent", RootCellId)], [])

  // ---------------------------------------------------------------------------
  // Label and layout

  /** Python truthiness of `node.node_number`: absent and empty both count as false. */
  predicate HasNodeNumber(node: Node) {
    node.nodeNumber.Some? && node.nodeNumber.value != ""
  }

  /** The text shown in a node's box: the node number and a line break before the label, when there is a number. */
  function FullLabel(node: Node): (value: string)
    ensures value == node.labelText <==> !HasNodeNumber(node)
  {
    if HasNodeNumber(node) then node.nodeNumber.value + "\n" + node.labelText else node.labelText
  }

  /**
   * The box of the node at sequence index `index`: the first node at (StartX, StartY), every
   * next one a step of OffsetX to the right and OffsetY down, all of the same size. The index
   * can be read back from either coordinate.
   */
  function Layout(index: nat): (b: Box)
    ensures b.width == BlockWidth && b.height == BlockHeight
    ensures b.x >= StartX && (b.x - StartX) % OffsetX == 0 && (b.x - StartX) / OffsetX == index
    ensures b.y >= StartY && (b.y - StartY) % OffsetY == 0 && (b.y - StartY) / OffsetY == index
  {
    Box(StartX + index * OffsetX, StartY + index * OffsetY, BlockWidth, BlockHeight)
  }

  // ---------------------------------------------------------------------------
  // Emission

  /** The `mxGeometry` child of a vertex: the box, every number written with `str`. */
  function GeometryElement(box: Box): (g: Element)
    ensures WellFormed(g)
  {
    var attributes := [
      Attribute("x", IntToString(box.x)), Attribute("y", IntToString(box.y)),
      Attribute("width", IntToString(box.width)), Attribute("height", IntToString(box.height)),
      Attribute("as", "geometry")
    ];
    var names := ["x", "y", "width", "height", "as"];
    assert forall i :: 0 <= i < |attributes| ==> attributes[i].name == names[i];
    assert forall i, j :: 0 <= i < j < |names| ==> names[i] != names[j];
    Element("mxGeometry", attributes, [])
  }

  /** The vertex cell of `node` when it is the `index`-th node of the diagram. */
  function NodeElement(node: Node, index: nat): (cell: Element)
    ensures WellFormed(cell)
  {
    var attributes := [
      Attribute("id", IntToString(node.id)), Attribute("value", FullLabel(node)),
      Attribute("style", VertexStyle), Attribute("parent", LayerId), Attribute("vertex", "1")
    ];
    var names := ["id", "value", "style", "parent", "vertex"];
    assert forall i :: 0 <= i < |attributes| ==> attributes[i].name == names[i];
    assert forall i, j :: 0 <= i < j < |names| ==> names[i] != names[j];
    var geometry := GeometryElement(Layout(index));
    assert forall c :: c in [geometry] ==> c == geometry;
    Element("mxCell", attributes, [geometry])
  }

  /** Applies `f` to each node and its index, counting from `first`. */
  function MapIndexed(f: (Node, nat) -> Element, nodes: seq<Node>, first: nat): (cells: seq<Element>)
    ensures |cells| == |nodes|
    ensures forall k :: 0 <= k < |nodes| ==> cells[k] == f(nodes[k], first + k)
    decreases |nodes|
  {
    if |nodes| == 0 then []
    else
      var rest := MapIndexed(f, nodes[1..], first + 1);
      assert forall k :: 0 < k < |nodes| ==> rest[k - 1] == f(nodes[k], first + k);
      [f(nodes[0], first)] + rest
  }

  /** The loop over the nodes: one vertex per node, in order, the first at index `first`. */
  function NodeElements(nodes: seq<Node>, first: nat): (cells: seq<Element>)
    ensures |cells| == |nodes|
    ensures forall k :: 0 <= k < |nodes| ==> cells[k] == NodeElement(nodes[k], first + k)
  {
    MapIndexed(NodeElement, nodes, first)
  }

  /** The cells under the document's `root` element. */
  function Cells(doc: Element): seq<Element> {
    if |doc.children| == 0 then [] else doc.children[0].children
  }

  /** The whole document for a diagram, before indentation and serialisation. */
  function ConvertToXml<E>(data: DiagramData<E>): (doc: Element)
    ensures doc.tag == "mxGraphModel" && |doc.children| == 1 && doc.children[0].tag == "root"
    ensures doc.attributes == GraphModelAttributes
    ensures |Cells(doc)| == |data.nodes| + 2
    ensures Cells(doc)[0] == RootCell && Cells(doc)[1] == LayerCell
    ensures forall i :: 0 <= i < |data.nodes| ==> Cells(doc)[i + 2] == NodeElement(data.nodes[i], i)
  {
    var vertices := NodeElements(data.nodes, 0);
    var cells := [RootCell, LayerCell] + vertices;
    assert forall i :: 0 <= i < |vertices| ==> cells[i + 2] == vertices[i];
    Element("mxGraphModel", GraphModelAttributes, [Element("root", [], cells)])
  }

  // ---------------------------------------------------------------------------
  // Reading a document back: what a consumer of the document sees

  /** A vertex as a reader of the document sees it. */
  datatype Vertex = Vertex(id: int, value: string, box: Box)

  /** The integer an attribute holds, if it is present and numeric. */
  function ReadNumber(e: Element, name: string): Option<int> {
    match e.Get(name)
    case Some(s) => ParseInt(s)
    case None => None
  }

  /** The box a geometry element describes. */
  function ReadBox(geometry: Element): Option<Box> {
    if geometry.tag != "mxGeometry" || geometry.Get("as") != Some("geometry") then None
    else
      var x, y := ReadNumber(geometry, "x"), ReadNumber(geometry, "y");
      var w, h := ReadNumber(geometry, "width"), ReadNumber(geometry, "height");
      if x.Some? && y.Some? && w.Some? && h.Some? then Some(Box(x.value, y.value, w.value, h.value)) else None
  }

  /** An activity vertex: a styled cell in the default layer with one geometry child. */
  function ReadVertex(cell: Element): Option<Vertex> {
    if cell.tag != "mxCell" || cell.Get("vertex") != Some("1") || cell.Get("parent") != Some(LayerId)
       || cell.Get("style") != Some(VertexStyle) || |cell.children| != 1 then None
    else
      var id, value, box := ReadNumber(cell, "id"), cell.Get("value"), ReadBox(cell.children[0]);
      if id.Some? && value.Some? && box.Some? then Some(Vertex(id.value, value.value, box.value)) else None
  }

  function ReadVertices(cells: seq<Element>): Option<seq<Vertex>>
    decreases |cells|
  {
    if |cells| == 0 then Some([])
    else match (ReadVertex(cells[0]), ReadVertices(cells[1..]))
      case (Some(v), Some(vs)) => Some([v] + vs)
      case _ => None
  }

  /** The vertices of a document in the converter's fixed frame, in cell order. */
  function ReadDocument(doc: Element): Option<seq<Vertex>> {
    if doc.tag != "mxGraphModel" || doc.attributes != GraphModelAttributes
       || |doc.children| != 1 || doc.children[0].tag != "root" then None
    else
      var cells := doc.children[0].children;
      if |cells| < 2 || cells[0] != RootCell || cells[1] != LayerCell then None
      else ReadVertices(cells[2..])
  }

  /** What the diagram's nodes should look like on the page: identity, text and cascade box. */
  function PlacedNodes(nodes: seq<Node>, first: nat): (vs: seq<Vertex>)
    ensures |vs| == |nodes|
  {
    seq(|nodes|, k requires 0 <= k < |nodes| => Vertex(nodes[k].id, FullLabel(nodes[k]), Layout(first + k)))
  }

  // ---------------------------------------------------------------------------
  // Properties

  /** Successive nodes step right by OffsetX and down by OffsetY; the size never changes. */
  lemma LayoutCascade(i: nat)
    ensures Layout(0) == Box(StartX, StartY, BlockWidth, BlockHeight)
    ensures Layout(i + 1) == Layout(i).(x := Layout(i).x + OffsetX, y := Layout(i).y + OffsetY)
  {
  }

  /** The cascade with the converter's constants written out. */
  lemma LayoutValues(i: nat)
    ensures Layout(i) == Box(120 + 180 * i, 100 + 120 * i, 140, 80)
  {
  }

  /** Positions strictly increase with the index, so distinct indices never share a position. */
  lemma LayoutStrictlyIncreasing(i: nat, j: nat)
    requires i < j
    ensures Layout(i).x < Layout(j).x && Layout(i).y < Layout(j).y
  {
    assert Layout(j).x - Layout(i).x == (j - i) * OffsetX;
    assert Layout(j).y - Layout(i).y == (j - i) * OffsetY;
  }

  /**
   * The label is shown unchanged exactly when the node has no (non-empty) number;
   * otherwise the number and a line break come first and the label ends the text.
   */
  lemma FullLabelShape(node: Node)
    ensures FullLabel(node) == node.labelText <==> !HasNodeNumber(node)
    ensures HasNodeNumber(node) ==>
              var value, number := FullLabel(node), node.nodeNumber.value;
              && |value| == |number| + 1 + |node.labelText|
              && value[..|number|] == number && value[|number|] == '\n'
              && value[|number| + 1..] == node.labelText
  {
    if HasNodeNumber(node) {
      assert |FullLabel(node)| > |node.labelText|;
    }
  }

  /** The attributes of a geometry element, as a reader finds them. */
  lemma GeometryFields(box: Box)
    ensures var g := GeometryElement(box);
      && g.Get("x") == Some(IntToString(box.x)) && g.Get("y") == Some(IntToString(box.y))
      && g.Get("width") == Some(IntToString(box.width)) && g.Get("height") == Some(IntToString(box.height))
      && g.Get("as") == Some("geometry")
  {
    var attributes := GeometryElement(box).attributes;
    LookupDistinct(attributes, 0);
    LookupDistinct(attributes, 1);
    LookupDistinct(attributes, 2);
    LookupDistinct(attributes, 3);
    LookupDistinct(attributes, 4);
  }

  /** The attributes of a vertex cell, as a reader finds them. */
  lemma NodeElementFields(node: Node, index: nat)
    ensures var cell := NodeElement(node, index);
      && cell.Get("id") == Some(IntToString(node.id)) && cell.Get("value") == Some(FullLabel(node))
      && cell.Get("style") == Some(VertexStyle) && cell.Get("parent") == Some(LayerId)
      && cell.Get("vertex") == Some("1")
  {
    var attributes := NodeElement(node, index).attributes;
    LookupDistinct(attributes, 0);
    LookupDistinct(attributes, 1);
    LookupDistinct(attributes, 2);
    LookupDistinct(attributes, 3);
    LookupDistinct(attributes, 4);
  }

  /** A geometry element reads back as the box it was written from. */
  lemma GeometryRoundTrip(box: Box)
    ensures ReadBox(GeometryElement(box)) == Some(box)
  {
    GeometryFields(box);
    IntToStringRoundTrip(box.x);
    IntToStringRoundTrip(box.y);
    IntToStringRoundTrip(box.width);
    IntToStringRoundTrip(box.height);
  }

  /** A node's vertex cell reads back as the node's id, its full label and its cascade box. */
  lemma NodeElementRoundTrip(node: Node, index: nat)
    ensures ReadVertex(NodeElement(node, index)) == Some(Vertex(node.id, FullLabel(node), Layout(index)))
  {
    NodeElementFields(node, index);
    IntToStringRoundTrip(node.id);
    GeometryRoundTrip(Layout(index));
  }

  lemma PlacedNodesCons(nodes: seq<Node>, first: nat)
    requires |nodes| > 0
    ensures PlacedNodes(nodes, first)
         == [Vertex(nodes[0].id, FullLabel(nodes[0]), Layout(first))] + PlacedNodes(nodes[1..], first + 1)
  {
    var whole := PlacedNodes(nodes, first);
    var split := [Vertex(nodes[0].id, FullLabel(nodes[0]), Layout(first))] + PlacedNodes(nodes[1..], first + 1);
    var tail := PlacedNodes(nodes[1..], first + 1);
    forall k | 0 < k < |whole|
      ensures whole[k] == tail[k - 1]
    {
      var index := first + k;
      assert nodes[1..][k - 1] == nodes[k];
      assert tail[k - 1] == Vertex(nodes[k].id, FullLabel(nodes[k]), Layout(index));
    }
    assert whole == [whole[0]] + tail;
  }

  lemma {:induction false} NodeElementsRoundTrip(nodes: seq<Node>, first: nat)
    ensures ReadVertices(NodeElements(nodes, first)) == Some(PlacedNodes(nodes, first))
    decreases |nodes|
  {
    if |nodes| > 0 {
      var cells, rest := NodeElements(nodes, first), NodeElements(nodes[1..], first + 1);
      assert cells[0] == NodeElement(nodes[0], first);
      assert cells[1..] == rest;
      var v := Vertex(nodes[0].id, FullLabel(nodes[0]), Layout(first));
      NodeElementRoundTrip(nodes[0], first);
      NodeElementsRoundTrip(nodes[1..], first + 1);
      assert ReadVertices(cells) == Some([v] + PlacedNodes(nodes[1..], first + 1));
      PlacedNodesCons(nodes, first);
    }
  }

  /**
   * Reading the converted document gives back exactly one vertex per node, in node
   * order, each with the node's id, its full label and the cascade box of its index.
   */
  lemma ConvertRoundTrip<E>(data: DiagramData<E>)
    ensures ReadDocument(ConvertToXml(data)) == Some(PlacedNodes(data.nodes, 0))
  {
    var cells := Cells(ConvertToXml(data));
    assert cells[2..] == NodeElements(data.nodes, 0);
    NodeElementsRoundTrip(data.nodes, 0);
  }

  lemma GraphModelFields()
    ensures Lookup(GraphModelAttributes, "gridSize") == Some("10")
    ensures Lookup(GraphModelAttributes, "pageScale") == Some("1")
    ensures Lookup(GraphModelAttributes, "pageWidth") == Some("827")
    ensures Lookup(GraphModelAttributes, "pageHeight") == Some("1169")
    ensures Lookup(GraphModelAttributes, "background") == Some("#ffffff")
  {
    GraphModelNamesDistinct();
    LookupDistinct(GraphModelAttributes, 3);
    LookupDistinct(GraphModelAttributes, 10);
    LookupDistinct(GraphModelAttributes, 11);
    LookupDistinct(GraphModelAttributes, 12);
    LookupDistinct(GraphModelAttributes, 13);
  }

  lemma GraphModelNamesDistinct()
    ensures DistinctNames(GraphModelAttributes)
  {
    var names := ["dx", "dy", "grid", "gridSize", "guides", "tooltips", "connect", "arrows",
                  "fold", "page", "pageScale", "pageWidth", "pageHeight", "background"];
    assert forall i :: 0 <= i < |GraphModelAttributes| ==> GraphModelAttributes[i].name == names[i];
    assert forall i, j :: 0 <= i < j < |names| ==> names[i] != names[j];
  }

  /** The page frame is the same constant for every diagram: an A4 page with a 10-unit grid. */
  lemma FrameIsConstant<E>(data: DiagramData<E>)
    ensures var doc := ConvertToXml(data);
      && doc.attributes == GraphModelAttributes
      && doc.Get("gridSize") == Some("10") && doc.Get("pageScale") == Some("1")
      && doc.Get("pageWidth") == Some("827") && doc.Get("pageHeight") == Some("1169")
      && doc.Get("background") == Some("#ffffff")
  {
    GraphModelFields();
  }

  lemma BaseCellFields()
    ensures RootCell.Get("id") == Some(RootCellId) && RootCell.Get("parent") == None
    ensures RootCell.Get("vertex") == None
    ensures LayerCell.Get("id") == Some(LayerId) && LayerCell.Get("parent") == Some(RootCellId)
    ensures LayerCell.Get("vertex") == None
  {
    LookupFinds(RootCell.attributes, 0);
    LookupMisses(RootCell.attributes, "parent");
    LookupMisses(RootCell.attributes, "vertex");
    LookupFinds(LayerCell.attributes, 0);
    LookupFinds(LayerCell.attributes, 1);
    LookupMisses(LayerCell.attributes, "vertex");
  }

  /** The cell list opens with the root cell and the layer, and every later cell is a vertex. */
  lemma BaseCellsFirst<E>(data: DiagramData<E>)
    ensures var cells := Cells(ConvertToXml(data));
      && cells[0].Get("id") == Some(RootCellId) && cells[0].Get("parent") == None
      && cells[1].Get("id") == Some(LayerId) && cells[1].Get("parent") == Some(RootCellId)
      && cells[0].Get("vertex") == None && cells[1].Get("vertex") == None
      && forall k :: 2 <= k < |cells| ==> cells[k].Get("vertex") == Some("1")
  {
    var cells := Cells(ConvertToXml(data));
    BaseCellFields();
    assert cells[0] == RootCell && cells[1] == LayerCell;
    forall k | 2 <= k < |cells|
      ensures cells[k].Get("vertex") == Some("1")
    {
      NodeElementFields(data.nodes[k - 2], k - 2);
    }
  }

  /** Each vertex: id is the node id in decimal, in the default layer, with the fixed style and the full label. */
  lemma VertexAttributes<E>(data: DiagramData<E>, i: nat)
    requires i < |data.nodes|
    ensures var cell, node := Cells(ConvertToXml(data))[i + 2], data.nodes[i];
      && cell.Get("id") == Some(IntToString(node.id))
      && ReadNumber(cell, "id") == Some(node.id)
      && cell.Get("parent") == Some(LayerId)
      && cell.Get("vertex") == Some("1")
      && cell.Get("style") == Some(VertexStyle)
      && cell.Get("value") == Some(FullLabel(node))
  {
    NodeElementFields(data.nodes[i], i);
    IntToStringRoundTrip(data.nodes[i].id);
  }

  /** The geometry of the node at index i is x = 120 + 180 i, y = 100 + 120 i, 140 wide and 80 high. */
  lemma VertexGeometry<E>(data: DiagramData<E>, i: nat)
    requires i < |data.nodes|
    ensures var geometry := Cells(ConvertToXml(data))[i + 2].children[0];
      ReadBox(geometry) == Some(Box(120 + 180 * i, 100 + 120 * i, 140, 80))
  {
    var cell := Cells(ConvertToXml(data))[i + 2];
    assert cell == NodeElement(data.nodes[i], i);
    assert cell.children[0] == GeometryElement(Layout(i));
    GeometryRoundTrip(Layout(i));
    LayoutValues(i);
  }

  /** Nodes with distinct ids get vertex cells with distinct ids. */
  lemma DistinctNodeIdsGiveDistinctCellIds<E>(data: DiagramData<E>, i: nat, j: nat)
    requires i < |data.nodes| && j < |data.nodes|
    requires data.nodes[i].id != data.nodes[j].id
    ensures Cells(ConvertToXml(data))[i + 2].Get("id") != Cells(ConvertToXml(data))[j + 2].Get("id")
  {
    NodeElementFields(data.nodes[i], i);
    NodeElementFields(data.nodes[j], j);
    if IntToString(data.nodes[i].id) == IntToString(data.nodes[j].id) {
      IntToStringInjective(data.nodes[i].id, data.nodes[j].id);
    }
  }

  /** The diagram's name and edges have no influence on the document: edges produce no cells. */
  lemma OnlyNodesMatter<E>(a: DiagramData<E>, b: DiagramData<E>)
    requires a.nodes == b.nodes
    ensures ConvertToXml(a) == ConvertToXml(b)
  {
  }

  lemma VerticesWellFormed(nodes: seq<Node>, first: nat)
    ensures forall c :: c in NodeElements(nodes, first) ==> WellFormed(c)
  {
    var vertices := NodeElements(nodes, first);
    assert forall k :: 0 <= k < |vertices| ==> WellFormed(vertices[k]);
  }

  lemma BaseCellsWellFormed()
    ensures WellFormed(RootCell) && WellFormed(LayerCell)
  {
    assert DistinctNames(LayerCell.attributes);
  }

  /** Every element of the document has distinct attribute names. */
  lemma ConvertIsWellFormed<E>(data: DiagramData<E>)
    ensures WellFormed(ConvertToXml(data))
  {
    var vertices := NodeElements(data.nodes, 0);
    VerticesWellFormed(data.nodes, 0);
    BaseCellsWellFormed();
    var cells := [RootCell, LayerCell] + vertices;
    forall c | c in cells
      ensures WellFormed(c)
    {
      assert c == RootCell || c == LayerCell || c in vertices;
    }
    var root := Element("root", [], cells);
    assert WellFormed(root);
    GraphModelNamesDistinct();
    assert ConvertToXml(data) == Element("mxGraphModel", GraphModelAttributes, [root]);
  }

  /** The three numbered activities of the sample order process. */
  const SampleNodes: seq<Node> := [
    Node(1, "Register Order", Some("A1")),
    Node(2, "Check Availability", Some("A2")),
    Node(3, "Ship Goods", Some("A3"))
  ]

  /** The vertices the three sample activities should produce. */
  const SampleVertices: seq<Vertex> := [
    Vertex(1, "A1" + "\n" + "Register Order", Box(120, 100, 140, 80)),
    Vertex(2, "A2" + "\n" + "Check Availability", Box(300, 220, 140, 80)),
    Vertex(3, "A3" + "\n" + "Ship Goods", Box(480, 340, 140, 80))
  ]

  lemma SampleVertex(k: nat)
    requires k < 3
    ensures Vertex(SampleNodes[k].id, FullLabel(SampleNodes[k]), Layout(k)) == SampleVertices[k]
  {
    LayoutValues(k);
    assert HasNodeNumber(SampleNodes[k]);
  }

  lemma SamplePlacement()
    ensures PlacedNodes(SampleNodes, 0) == SampleVertices
  {
    var placed := PlacedNodes(SampleNodes, 0);
    forall k | 0 <= k < 3
      ensures placed[k] == SampleVertices[k]
    {
      assert placed[k] == Vertex(SampleNodes[k].id, FullLabel(SampleNodes[k]), Layout(k));
      SampleVertex(k);
    }
  }

  /** Any diagram with the three sample activities: three numbered vertices on the cascade. */
  lemma SampleDiagram<E>(data: DiagramData<E>)
    requires data.nodes == SampleNodes
    ensures ReadDocument(ConvertToXml(data)) == Some(SampleVertices)
  {
    ConvertRoundTrip(data);
    SamplePlacement();
  }
}

=== FILE: decimal.dfy ===
/**
 * Decimal text of integers, as Python's `str(int)` writes it, and the parser that
 * reads such text back. Every number the converter writes into an attribute goes
 * through `IntToString`; `ParseInt` is how a reader of the document recovers it.
 */
module Decimal {
  import opened Wrappers

  predicate IsDigit(c: char) {
    '0' <= c <= '9'
  }

  predicate AllDigits(s: string) {
    forall i :: 0 <= i < |s| ==> IsDigit(s[i])
  }

  function DigitChar(d: nat): (c: char)
    requires d < 10
    ensures IsDigit(c)
  {
    (('0' as int) + d) as char
  }

  function DigitValue(c: char): (d: nat)
    requires IsDigit(c)
    ensures d < 10
    ensures DigitChar(d) == c
  {
    (c as int) - ('0' as int)
  }

  /** The digits of `n`, most significant first, with no leading zero. */
  function NatToString(n: nat): (s: string)
    ensures |s| > 0 && AllDigits(s)
    ensures s[0] == '0' <==> n == 0
    decreases n
  {
    if n < 10 then [DigitChar(n)] else NatToString(n / 10) + [DigitChar(n % 10)]
  }

  /** `str(n)`: a leading '-' for negative numbers, then the digits of the magnitude. */
  function IntToString(n: int): (s: string)
    ensures |s| > 0
    ensures s[0] == '-' <==> n < 0
    ensures var digits := if n < 0 then s[1..] else s;
      |digits| > 0 && AllDigits(digits) && (digits[0] == '0' <==> n == 0)
  {
    if n < 0 then "-" + NatToString(-n) else NatToString(n)
  }

  /** The number a string of digits denotes, read most significant digit first. */
  function DigitsValue(s: string): nat
    requires AllDigits(s)
    decreases |s|
  {
    if |s| == 0 then 0 else DigitsValue(s[..|s| - 1]) * 10 + DigitValue(s[|s| - 1])
  }

  /** Reads an optional '-' followed by one or more digits; anything else is not a number. */
  function ParseInt(s: string): Option<int> {
    if |s| > 0 && s[0] == '-' then
      if |s| > 1 && AllDigits(s[1..]) then Some(0 - DigitsValue(s[1..]) as int) else None
    else if |s| > 0 && AllDigits(s) then Some(DigitsValue(s))
    else None
  }

  lemma {:induction false} DigitsValueOfNatToString(n: nat)
    ensures DigitsValue(NatToString(n)) == n
    decreases n
  {
    if n >= 10 {
      var prefix := NatToString(n / 10);
      var s := prefix + [DigitChar(n % 10)];
      assert s[..|s| - 1] == prefix;
      DigitsValueOfNatToString(n / 10);
    }
  }

  /** Reading back what `str` wrote gives the original number, negative numbers included. */
  lemma IntToStringRoundTrip(n: int)
    ensures ParseInt(IntToString(n)) == Some(n)
  {
    var s := IntToString(n);
    if n < 0 {
      assert s[1..] == NatToString(-n);
      DigitsValueOfNatToString(-n);
    } else {
      DigitsValueOfNatToString(n);
    }
  }

  /** Distinct numbers are written as distinct strings. */
  lemma IntToStringInjective(a: int, b: int)
    requires IntToString(a) == IntToString(b)
    ensures a == b
  {
    IntToStringRoundTrip(a);
    IntToStringRoundTrip(b);
  }
}

=== FILE: drawio_service.dfy ===
/**
 * The draw.io bridge service: a registry of event handlers keyed by event type, the
 * dispatch of an incoming iframe event to those handlers, and the readiness flag that
 * guards loading and exporting. Posting to the iframe is modelled as the message the
 * service would post; handler bodies are abstract.
 */
module DrawioService {
  import opened Wrappers

  type EventType = string

  /** Identity of the iframe (its content window). */
  type Frame = nat

  /**
   * A registered callback, compared by identity as JavaScript compares functions.
   * `Listener(fn)` is a function a caller passed to `on`. `OnceWrapper(serial, inner)` is
   * the closure `once` creates around `inner`: a new object each time, told apart by the
   * serial number of its creation. When it runs, it calls `inner` and then unregisters itself.
   */
  datatype Handler = Listener(fn: nat) | OnceWrapper(serial: nat, inner: Callback)

  /**
   * What a `once` wrapper calls: the callback `init` registers, which makes the service
   * ready, or a function of a caller (such as the `resolve` of `exportDiagram`).
   */
  datatype Callback = SetReady | Client(fn: nat)

  /** The `eventHandlers` map: event type to handlers in registration order. */
  type Registry = map<EventType, seq<Handler>>

  /**
   * `eventHandlers.get(t) || []`: a registered list, even an empty one, is an array and so
   * truthy, so `|| []` only stands in for a type with no entry.
   */
  function HandlersFor(registry: Registry, t: EventType): (handlers: seq<Handler>)
    ensures t in registry ==> handlers == registry[t]
    ensures t !in registry ==> handlers == []
  {
    if t in registry then registry[t] else []
  }

  /** `Array.prototype.indexOf`: the first position of `h`, or -1. */
  function IndexOf(handlers: seq<Handler>, h: Handler): (r: int)
    ensures -1 <= r < |handlers|
    ensures r == -1 <==> h !in handlers
    ensures 0 <= r ==> handlers[r] == h && h !in handlers[..r]
    decreases |handlers|
  {
    if |handlers| == 0 then -1
    else if handlers[0] == h then 0
    else
      var r := IndexOf(handlers[1..], h);
      if r == -1 then -1 else r + 1
  }

  /** `splice(indexOf(h), 1)` when `h` is present: removes exactly one copy of `h`. */
  function RemoveFirst(handlers: seq<Handler>, h: Handler): (rest: seq<Handler>)
    ensures h !in handlers ==> rest == handlers
    ensures h in handlers ==> |rest| == |handlers| - 1
    ensures forall x :: x in rest ==> x in handlers
  {
    var i := IndexOf(handlers, h);
    if i > -1 then handlers[..i] + handlers[i + 1..] else handlers
  }

  /** A list is its prefix, the element at `i` and its suffix. */
  lemma SplitAt(handlers: seq<Handler>, i: nat)
    requires i < |handlers|
    ensures handlers == handlers[..i] + [handlers[i]] + handlers[i + 1..]
  {
  }

  /** Removing `h` takes exactly one copy of it out of the list and keeps every other handler's count. */
  lemma RemoveFirstCount(handlers: seq<Handler>, h: Handler)
    ensures multiset(RemoveFirst(handlers, h)) == multiset(handlers) - multiset{h}
  {
    var i := IndexOf(handlers, h);
    if i > -1 {
      SplitAt(handlers, i);
      var before, after := handlers[..i], handlers[i + 1..];
      assert RemoveFirst(handlers, h) == before + after;
      var rest := multiset(before) + multiset(after);
      assert multiset(handlers) == rest + multiset{h};
      assert multiset(before + after) == rest;
    }
  }

  // ---------------------------------------------------------------------------
  // Registry operations

  /** `on(t, h)`: appends `h` to the list of `t`, creating the list when `t` is new. */
  function On(registry: Registry, t: EventType, h: Handler): (r: Registry)
    ensures r.Keys == registry.Keys + {t}
    ensures r[t] == HandlersFor(registry, t) + [h]
    ensures forall u :: u in registry && u != t ==> r[u] == registry[u]
  {
    registry[t := HandlersFor(registry, t) + [h]]
  }

  /** `off(t, h)`: removes the first occurrence of `h` from the list of `t`, if any. */
  function Off(registry: Registry, t: EventType, h: Handler): (r: Registry)
    ensures h !in HandlersFor(registry, t) ==> r == registry
    ensures r.Keys == registry.Keys
    ensures forall u :: u in registry && u != t ==> r[u] == registry[u]
  {
    if h in HandlersFor(registry, t) then registry[t := RemoveFirst(registry[t], h)]
    else registry
  }

  /**
   * `forEach` over the live handler array of one event type. The length is read once at
   * the start; position `k` runs whatever handler sits there now, and a position past the
   * current end is skipped. A once-wrapper that runs removes itself from the same array,
   * shifting the handlers after it one place to the left.
   * Returns the array afterwards and the handlers that ran, in order.
   */
  function ForEach(handlers: seq<Handler>, k: nat, length: nat): (r: (seq<Handler>, seq<Handler>))
    ensures forall h :: h in r.1 ==> h in handlers
    decreases length - k
  {
    if k >= length then (handlers, [])
    else if k >= |handlers| then ForEach(handlers, k + 1, length)
    else
      var h := handlers[k];
      var after := if h.OnceWrapper? then RemoveFirst(handlers, h) else handlers;
      var rest := ForEach(after, k + 1, length);
      (rest.0, [h] + rest.1)
  }

  /**
   * The dispatch step of `handleMessage`: runs only handlers registered for `t` and changes
   * no other type's list; an unregistered type runs nothing.
   */
  function Dispatch(registry: Registry, t: EventType): (r: (Registry, seq<Handler>))
    ensures t !in registry ==> r == (registry, [])
    ensures r.0.Keys == registry.Keys
    ensures forall u :: u in registry && u != t ==> r.0[u] == registry[u]
    ensures forall h :: h in r.1 ==> h in HandlersFor(registry, t)
  {
    if t in registry then
      var run := ForEach(registry[t], 0, |registry[t]|);
      (registry[t := run.0], run.1)
    else (registry, [])
  }

  // ---------------------------------------------------------------------------
  // The wrapper invariant

  /** No one-time wrapper sits twice in the list. */
  predicate WrappersUnique(handlers: seq<Handler>) {
    forall h :: h in handlers && h.OnceWrapper? ==> multiset(handlers)[h] == 1
  }

  /**
   * What holds of every registry the service builds: each wrapper was created before the
   * counter reached `bound`, and each wrapper is registered once, under a single event type
   * (the type its own `off` call names).
   */
  predicate RegistryValid(registry: Registry, bound: nat) {
    && (forall t, h :: t in registry && h in registry[t] && h.OnceWrapper? ==> h.serial < bound)
    && (forall t :: t in registry ==> WrappersUnique(registry[t]))
    && (forall t, u, h :: t in registry && u in registry && h in registry[t] && h in registry[u] && h.OnceWrapper? ==> t == u)
  }

  /** Replacing a list by a sub-multiset of it keeps the registry valid. */
  lemma ShrinkKeepsValid(registry: Registry, bound: nat, t: EventType, handlers: seq<Handler>)
    requires RegistryValid(registry, bound) && t in registry
    requires multiset(handlers) <= multiset(registry[t])
    ensures RegistryValid(registry[t := handlers], bound)
  {
    var r := registry[t := handlers];
    forall h | h in handlers
      ensures h in registry[t]
    {
      assert multiset(registry[t])[h] >= multiset(handlers)[h] > 0;
    }
    forall u | u in r
      ensures WrappersUnique(r[u])
    {
      if u == t {
        forall h | h in handlers && h.OnceWrapper?
          ensures multiset(handlers)[h] == 1
        {
          assert multiset(registry[t])[h] == 1;
        }
      }
    }
  }

  /** Appending a listener, or a wrapper the list does not hold yet, keeps wrappers unrepeated. */
  lemma AppendKeepsUnique(handlers: seq<Handler>, h: Handler)
    requires WrappersUnique(handlers) && (h.OnceWrapper? ==> h !in handlers)
    ensures WrappersUnique(handlers + [h])
  {
    var whole := handlers + [h];
    assert multiset(whole) == multiset(handlers) + multiset{h};
    forall x | x in whole && x.OnceWrapper?
      ensures multiset(whole)[x] == 1
    {
      if x != h {
        assert x in handlers;
      }
    }
  }

  /** Appending a plain listener keeps the registry valid. */
  lemma AddListenerKeepsValid(registry: Registry, bound: nat, t: EventType, h: Handler)
    requires RegistryValid(registry, bound) && h.Listener?
    ensures RegistryValid(On(registry, t, h), bound)
  {
    var r := On(registry, t, h);
    AppendKeepsUnique(HandlersFor(registry, t), h);
    forall u, x | u in r && x in r[u]
      ensures x in HandlersFor(registry, u) || x == h
    {
    }
  }

  /**
   * Appending a wrapper whose serial is the counter itself keeps the registry valid once
   * the counter moves on; the wrapper was registered nowhere before.
   */
  lemma AddFreshWrapperKeepsValid(registry: Registry, bound: nat, t: EventType, w: Handler)
    requires RegistryValid(registry, bound) && w.OnceWrapper? && w.serial == bound
    ensures forall u :: u in registry ==> w !in registry[u]
    ensures RegistryValid(On(registry, t, w), bound + 1)
  {
    var r := On(registry, t, w);
    AppendKeepsUnique(HandlersFor(registry, t), w);
    forall u, x | u in r && x in r[u]
      ensures x in HandlersFor(registry, u) || (x == w && u == t)
    {
    }
  }

  lemma {:induction false} ForEachShrinks(handlers: seq<Handler>, k: nat, length: nat)
    ensures multiset(ForEach(handlers, k, length).0) <= multiset(handlers)
    decreases length - k
  {
    if k < length {
      if k >= |handlers| {
        ForEachShrinks(handlers, k + 1, length);
      } else {
        var h := handlers[k];
        if h.OnceWrapper? {
          var after := RemoveFirst(handlers, h);
          assert ForEach(handlers, k, length).0 == ForEach(after, k + 1, length).0;
          RemoveFirstCount(handlers, h);
          ForEachShrinks(after, k + 1, length);
        } else {
          assert ForEach(handlers, k, length).0 == ForEach(handlers, k + 1, length).0;
          ForEachShrinks(handlers, k + 1, length);
        }
      }
    }
  }

  /** `off` keeps the registry valid: it only ever removes a handler. */
  lemma OffKeepsValid(registry: Registry, bound: nat, t: EventType, h: Handler)
    requires RegistryValid(registry, bound)
    ensures RegistryValid(Off(registry, t, h), bound)
  {
    if h in HandlersFor(registry, t) {
      RemoveFirstCount(registry[t], h);
      ShrinkKeepsValid(registry, bound, t, RemoveFirst(registry[t], h));
    }
  }

  /** A sub-multiset of a list without repeated wrappers has no repeated wrappers either. */
  lemma UniqueShrinks(handlers: seq<Handler>, whole: seq<Handler>)
    requires multiset(handlers) <= multiset(whole) && WrappersUnique(whole)
    ensures WrappersUnique(handlers)
  {
    forall h | h in handlers && h.OnceWrapper?
      ensures multiset(handlers)[h] == 1
    {
      assert multiset(whole)[h] >= multiset(handlers)[h] > 0;
    }
  }

  /** Removing a handler from a list without repeated wrappers leaves one without them. */
  lemma RemoveKeepsUnique(handlers: seq<Handler>, h: Handler)
    requires WrappersUnique(handlers)
    ensures WrappersUnique(RemoveFirst(handlers, h))
  {
    RemoveFirstCount(handlers, h);
    UniqueShrinks(RemoveFirst(handlers, h), handlers);
  }

  /** Removing a wrapper that occurs once leaves none of it. */
  lemma SoleWrapperRemoved(handlers: seq<Handler>, h: Handler)
    requires WrappersUnique(handlers) && h in handlers && h.OnceWrapper?
    ensures h !in RemoveFirst(handlers, h)
  {
    RemoveFirstCount(handlers, h);
    assert multiset(RemoveFirst(handlers, h))[h] == 0;
  }

  /** A wrapper that occurs once and removed itself is not brought back by the rest of the iteration. */
  lemma RemovedWrapperStaysOut(handlers: seq<Handler>, h: Handler, k: nat, length: nat)
    requires WrappersUnique(handlers) && h in handlers && h.OnceWrapper?
    ensures h !in ForEach(RemoveFirst(handlers, h), k, length).0
  {
    var after := RemoveFirst(handlers, h);
    SoleWrapperRemoved(handlers, h);
    ForEachShrinks(after, k, length);
    assert multiset(ForEach(after, k, length).0)[h] <= multiset(after)[h] == 0;
  }

  /** The step of ForEachRanWrappersGone at a wrapper: it and the wrappers run after it are gone. */
  lemma WrapperStepGone(handlers: seq<Handler>, k: nat, length: nat)
    requires WrappersUnique(handlers) && k < length && k < |handlers| && handlers[k].OnceWrapper?
    requires var rest := ForEach(RemoveFirst(handlers, handlers[k]), k + 1, length);
      forall x :: x in rest.1 && x.OnceWrapper? ==> x !in rest.0
    ensures var r := ForEach(handlers, k, length);
      forall x :: x in r.1 && x.OnceWrapper? ==> x !in r.0
  {
    var h := handlers[k];
    var rest := ForEach(RemoveFirst(handlers, h), k + 1, length);
    assert ForEach(handlers, k, length) == (rest.0, [h] + rest.1);
    RemovedWrapperStaysOut(handlers, h, k + 1, length);
    forall x | x in [h] + rest.1 && x.OnceWrapper?
      ensures x !in rest.0
    {
      if x != h {
        assert x in rest.1;
      }
    }
  }

  /** The step of ForEachRanWrappersGone at a plain listener, which removes nothing. */
  lemma ListenerStepGone(handlers: seq<Handler>, k: nat, length: nat)
    requires k < length && k < |handlers| && handlers[k].Listener?
    requires var rest := ForEach(handlers, k + 1, length);
      forall x :: x in rest.1 && x.OnceWrapper? ==> x !in rest.0
    ensures var r := ForEach(handlers, k, length);
      forall x :: x in r.1 && x.OnceWrapper? ==> x !in r.0
  {
    var rest := ForEach(handlers, k + 1, length);
    assert ForEach(handlers, k, length) == (rest.0, [handlers[k]] + rest.1);
    forall x | x in [handlers[k]] + rest.1 && x.OnceWrapper?
      ensures x !in rest.0
    {
      assert x in rest.1;
    }
  }

  /**
   * In a list without repeated wrappers, every wrapper the live iteration runs has removed
   * itself by the end of the iteration.
   */
  lemma {:induction false} ForEachRanWrappersGone(handlers: seq<Handler>, k: nat, length: nat)
    requires WrappersUnique(handlers)
    ensures var r := ForEach(handlers, k, length);
      forall h :: h in r.1 && h.OnceWrapper? ==> h !in r.0
    decreases length - k
  {
    if k < length {
      if k >= |handlers| {
        ForEachRanWrappersGone(handlers, k + 1, length);
      } else {
        var h := handlers[k];
        if h.OnceWrapper? {
          RemoveKeepsUnique(handlers, h);
          ForEachRanWrappersGone(RemoveFirst(handlers, h), k + 1, length);
          WrapperStepGone(handlers, k, length);
        } else {
          ForEachRanWrappersGone(handlers, k + 1, length);
          ListenerStepGone(handlers, k, length);
        }
      }
    }
  }

  /** Every one-time wrapper a dispatch runs is no longer registered for its type afterwards. */
  lemma DispatchedWrappersAreGone(registry: Registry, t: EventType)
    requires WrappersUnique(HandlersFor(registry, t))
    ensures var r := Dispatch(registry, t);
      forall h :: h in r.1 && h.OnceWrapper? ==> h !in HandlersFor(r.0, t)
  {
    if t in registry {
      ForEachRanWrappersGone(registry[t], 0, |registry[t]|);
    }
  }

  /** Dispatch keeps the registry valid: it only ever removes handlers. */
  lemma DispatchKeepsValid(registry: Registry, bound: nat, t: EventType)
    requires RegistryValid(registry, bound)
    ensures RegistryValid(Dispatch(registry, t).0, bound)
  {
    if t in registry {
      ForEachShrinks(registry[t], 0, |registry[t]|);
      ShrinkKeepsValid(registry, bound, t, Dispatch(registry, t).0[t]);
    }
  }

  // ---------------------------------------------------------------------------
  // The service object

  /** What the service posts to the iframe. */
  datatype Action = Load(xml: string) | Export(format: string)

  datatype Posted = Posted(frame: Frame, action: Action)

  /**
   * The service's state: the iframe (if initialised), the readiness flag, the handler
   * registry, and the number of once-wrappers created so far (their identities).
   */
  datatype Service = Service(iframe: Option<Frame>, isReady: bool, handlers: Registry, wrappers: nat)

  /** The invariant every operation of the service keeps. */
  predicate Valid(s: Service) {
    RegistryValid(s.handlers, s.wrappers)
  }

  const InitEvent: EventType := "init"
  const ExportEvent: EventType := "export"
  const DefaultExportFormat: string := "xml"
  const NotReady: string := "Draw.io is not ready"
  const IframeRequired: string := "Iframe element is required"

  /** A freshly constructed service: no iframe, not ready, no handlers. */
  function NewService(): (s: Service)
    ensures s.iframe == None && !s.isReady && s.handlers == map[]
    ensures Valid(s)
  {
    Service(None, false, map[], 0)
  }

  /** `on(t, fn)` called by a client of the service with its own function. */
  function Subscribe(s: Service, t: EventType, fn: nat): (r: Service)
    ensures HandlersFor(r.handlers, t) == HandlersFor(s.handlers, t) + [Listener(fn)]
    ensures forall u :: u != t ==> HandlersFor(r.handlers, u) == HandlersFor(s.handlers, u)
    ensures r.iframe == s.iframe && r.isReady == s.isReady && r.wrappers == s.wrappers
    ensures Valid(s) ==> Valid(r)
  {
    var r := s.(handlers := On(s.handlers, t, Listener(fn)));
    assert Valid(s) ==> Valid(r) by {
      if Valid(s) {
        AddListenerKeepsValid(s.handlers, s.wrappers, t, Listener(fn));
      }
    }
    r
  }

  /** `off(t, h)` on the service's registry. */
  function Unsubscribe(s: Service, t: EventType, h: Handler): (r: Service)
    ensures h !in HandlersFor(s.handlers, t) ==> r == s
    ensures HandlersFor(r.handlers, t) == RemoveFirst(HandlersFor(s.handlers, t), h)
    ensures forall u :: u != t ==> HandlersFor(r.handlers, u) == HandlersFor(s.handlers, u)
    ensures r.iframe == s.iframe && r.isReady == s.isReady && r.wrappers == s.wrappers
    ensures Valid(s) ==> Valid(r)
  {
    var r := s.(handlers := Off(s.handlers, t, h));
    assert Valid(s) ==> Valid(r) by {
      if Valid(s) {
        OffKeepsValid(s.handlers, s.wrappers, t, h);
      }
    }
    r
  }

  /**
   * `once(t, inner)`: registers a new wrapper around `inner` at the end of the list of `t`.
   * In a valid state the wrapper is new: it was registered under no event type before.
   */
  function Once(s: Service, t: EventType, inner: Callback): (r: Service)
    ensures HandlersFor(r.handlers, t) == HandlersFor(s.handlers, t) + [OnceWrapper(s.wrappers, inner)]
    ensures forall u :: u != t ==> HandlersFor(r.handlers, u) == HandlersFor(s.handlers, u)
    ensures r.iframe == s.iframe && r.isReady == s.isReady && r.wrappers == s.wrappers + 1
    ensures Valid(s) ==> Valid(r) && forall u :: u in s.handlers ==> OnceWrapper(s.wrappers, inner) !in s.handlers[u]
  {
    var w := OnceWrapper(s.wrappers, inner);
    var r := s.(handlers := On(s.handlers, t, w), wrappers := s.wrappers + 1);
    assert Valid(s) ==> Valid(r) && forall u :: u in s.handlers ==> w !in s.handlers[u] by {
      if Valid(s) {
        AddFreshWrapperKeepsValid(s.handlers, s.wrappers, t, w);
      }
    }
    r
  }

  /**
   * `init(frame)`: fails without an iframe; otherwise stores it and registers, for the "init"
   * event, a one-time wrapper around the callback that makes the service ready. Readiness
   * arrives later: when that wrapper runs (`HandleMessage`) or when the timeout fires (`MarkReady`).
   */
  function Init(s: Service, frame: Option<Frame>): (r: Result<Service, string>)
    ensures r.Failure? <==> frame.None?
    ensures r.Failure? ==> r.error == IframeRequired
    ensures r.Success? ==>
              && r.value.iframe == frame && r.value.isReady == s.isReady && r.value.wrappers == s.wrappers + 1
              && HandlersFor(r.value.handlers, InitEvent) == HandlersFor(s.handlers, InitEvent) + [OnceWrapper(s.wrappers, SetReady)]
              && (forall u :: u != InitEvent ==> HandlersFor(r.value.handlers, u) == HandlersFor(s.handlers, u))
    ensures r.Success? && Valid(s) ==>
              && Valid(r.value)
              && forall u :: u in s.handlers ==> OnceWrapper(s.wrappers, SetReady) !in s.handlers[u]
  {
    if frame.None? then Failure(IframeRequired)
    else Success(Once(s.(iframe := frame), InitEvent, SetReady))
  }

  /** Whether the handlers that ran include a wrapper around the ready callback of `init`. */
  predicate RunsReadyCallback(ran: seq<Handler>) {
    exists h :: h in ran && h.OnceWrapper? && h.inner == SetReady
  }

  /** The init timeout firing before the service is ready: it becomes ready and nothing else changes. */
  function MarkReady(s: Service): (r: Service)
    ensures r.isReady
    ensures r.iframe == s.iframe && r.handlers == s.handlers && r.wrappers == s.wrappers
  {
    s.(isReady := true)
  }

  /**
   * `handleMessage`: an event from anything but the iframe, or a message that is not a
   * draw.io event (`event` absent), is ignored; an empty event type dispatches nothing;
   * otherwise the handlers of the event type run.
   */
  function HandleMessage(s: Service, source: Option<Frame>, event: Option<EventType>): (r: (Service, seq<Handler>))
    ensures s.iframe.None? || source != s.iframe || event.None? || event == Some("") ==> r == (s, [])
    ensures s.iframe.Some? && source == s.iframe && event.Some? && event.value != "" ==>
              var run := Dispatch(s.handlers, event.value);
              r == (s.(handlers := run.0, isReady := s.isReady || RunsReadyCallback(run.1)), run.1)
    ensures r.0.isReady <==> s.isReady || RunsReadyCallback(r.1)
    ensures r.0.iframe == s.iframe && r.0.wrappers == s.wrappers
    ensures r.0.handlers.Keys == s.handlers.Keys
    ensures forall u :: u in s.handlers && Some(u) != event ==> r.0.handlers[u] == s.handlers[u]
    ensures Valid(s) ==> Valid(r.0)
  {
    if s.iframe.None? || source != s.iframe then (s, [])
    else match event
      case None => (s, [])
      case Some(t) =>
        if t == "" then (s, [])
        else
          var run := Dispatch(s.handlers, t);
          var r := s.(handlers := run.0, isReady := s.isReady || RunsReadyCallback(run.1));
          assert Valid(s) ==> Valid(r) by {
            if Valid(s) {
              DispatchKeepsValid(s.handlers, s.wrappers, t);
            }
          }
          (r, run.1)
  }

  /** `sendMessage`: posts to the iframe, or does nothing but log when there is none. */
  function SendMessage(s: Service, action: Action): (posted: Option<Posted>)
    ensures posted.None? <==> s.iframe.None?
    ensures posted.Some? ==> posted.value.frame == s.iframe.value && posted.value.action == action
  {
    match s.iframe
    case None => None
    case Some(frame) => Some(Posted(frame, action))
  }

  /** `loadDiagram(xml)`: throws unless ready, then posts a load action. */
  function LoadDiagram(s: Service, xml: string): (r: Result<Option<Posted>, string>)
    ensures r.Success? <==> s.isReady
    ensures r.Failure? ==> r.error == NotReady
    ensures r.Success? ==> r.value == SendMessage(s, Load(xml))
  {
    if !s.isReady then Failure(NotReady) else Success(SendMessage(s, Load(xml)))
  }

  /**
   * `exportDiagram(format)`: throws unless ready; then registers the one-time "export"
   * handler `resolve` and posts an export action. An omitted format means "xml".
   */
  function ExportDiagram(s: Service, format: Option<string>, resolve: nat): (r: Result<(Service, Option<Posted>), string>)
    ensures r.Success? <==> s.isReady
    ensures r.Failure? ==> r.error == NotReady
    ensures r.Success? ==>
              && HandlersFor(r.value.0.handlers, ExportEvent) == HandlersFor(s.handlers, ExportEvent) + [OnceWrapper(s.wrappers, Client(resolve))]
              && (forall u :: u != ExportEvent ==> HandlersFor(r.value.0.handlers, u) == HandlersFor(s.handlers, u))
              && r.value.1 == SendMessage(s, Export(if format.None? then DefaultExportFormat else format.value))
              && r.value.0.iframe == s.iframe && r.value.0.isReady && r.value.0.wrappers == s.wrappers + 1
    ensures r.Success? && Valid(s) ==> Valid(r.value.0)
  {
    if !s.isReady then Failure(NotReady)
    else
      var chosen := match format case None => DefaultExportFormat case Some(f) => f;
      Success((Once(s, ExportEvent, Client(resolve)), SendMessage(s, Export(chosen))))
  }

  /** `destroy`: forgets every handler and the iframe, and is no longer ready. */
  function Destroy(s: Service): (r: Service)
    ensures r.handlers == map[] && r.iframe == None && !r.isReady
    ensures r.wrappers == s.wrappers
    ensures Valid(r)
  {
    Service(None, false, map[], s.wrappers)
  }

  // ---------------------------------------------------------------------------
  // Properties

  /**
   * `off` removes the first occurrence of the handler, keeps every other entry in order,
   * and so drops exactly one registration of it.
   */
  lemma OffRemovesFirstOccurrence(registry: Registry, t: EventType, h: Handler)
    requires h in HandlersFor(registry, t)
    ensures var handlers := HandlersFor(registry, t);
      exists i :: 0 <= i < |handlers| && handlers[i] == h && h !in handlers[..i]
               && Off(registry, t, h)[t] == handlers[..i] + handlers[i + 1..]
    ensures multiset(HandlersFor(Off(registry, t, h), t)) == multiset(HandlersFor(registry, t)) - multiset{h}
  {
    var handlers := HandlersFor(registry, t);
    var i := IndexOf(handlers, h);
    assert handlers[i] == h && h !in handlers[..i];
    assert HandlersFor(Off(registry, t, h), t) == RemoveFirst(handlers, h);
    RemoveFirstCount(handlers, h);
  }

  lemma RemoveAppended(handlers: seq<Handler>, h: Handler)
    requires h !in handlers
    ensures IndexOf(handlers + [h], h) == |handlers|
    ensures RemoveFirst(handlers + [h], h) == handlers
  {
    var extended := handlers + [h];
    assert forall j :: 0 <= j < |handlers| ==> extended[j] == handlers[j];
    var i := IndexOf(extended, h);
    assert i == |handlers|;
    assert extended[..i] == handlers;
  }

  /** `off` right after `on` of a handler that was absent puts back the type's old list. */
  lemma OffAfterOn(registry: Registry, t: EventType, h: Handler)
    requires h !in HandlersFor(registry, t)
    ensures Off(On(registry, t, h), t, h) == registry[t := HandlersFor(registry, t)]
  {
    var handlers := HandlersFor(registry, t);
    var added := On(registry, t, h);
    RemoveAppended(handlers, h);
    assert HandlersFor(added, t) == handlers + [h];
    assert IndexOf(HandlersFor(added, t), h) > -1;
    assert Off(added, t, h) == added[t := handlers];
  }

  /** Registering a handler that was not there and unregistering it gives back the original list. */
  lemma OnThenOffRestores(registry: Registry, t: EventType, h: Handler)
    requires h !in HandlersFor(registry, t)
    ensures HandlersFor(Off(On(registry, t, h), t, h), t) == HandlersFor(registry, t)
    ensures t in registry ==> Off(On(registry, t, h), t, h) == registry
  {
    OffAfterOn(registry, t, h);
    if t in registry {
      assert registry[t := registry[t]] == registry;
    }
  }

  lemma {:induction false} ForEachListeners(handlers: seq<Handler>, k: nat)
    requires k <= |handlers|
    requires forall i :: 0 <= i < |handlers| ==> handlers[i].Listener?
    ensures ForEach(handlers, k, |handlers|) == (handlers, handlers[k..])
    decreases |handlers| - k
  {
    if k < |handlers| {
      ForEachListeners(handlers, k + 1);
      assert handlers[k..] == [handlers[k]] + handlers[k + 1..];
    }
  }

  /** Without one-time handlers, dispatch runs the handlers of the type in registration order and changes nothing. */
  lemma DispatchRunsListenersInOrder(registry: Registry, t: EventType)
    requires forall i :: 0 <= i < |HandlersFor(registry, t)| ==> HandlersFor(registry, t)[i].Listener?
    ensures Dispatch(registry, t) == (registry, HandlersFor(registry, t))
  {
    if t in registry {
      assert HandlersFor(registry, t) == registry[t];
      ForEachListeners(registry[t], 0);
      assert registry[t][0..] == registry[t];
      assert registry[t := registry[t]] == registry;
    }
  }

  /**
   * Whatever runs, dispatch only ever removes once-wrappers: every listener keeps its
   * number of registrations, and only registered handlers run.
   */
  lemma {:induction false} ForEachRemovesOnlyWrappers(handlers: seq<Handler>, k: nat, length: nat)
    ensures var r := ForEach(handlers, k, length);
      forall h: Handler :: h.Listener? ==> multiset(r.0)[h] == multiset(handlers)[h]
    decreases length - k
  {
    if k < length {
      if k >= |handlers| {
        ForEachRemovesOnlyWrappers(handlers, k + 1, length);
      } else {
        var h := handlers[k];
        var after := if h.OnceWrapper? then RemoveFirst(handlers, h) else handlers;
        var rest := ForEach(after, k + 1, length);
        assert ForEach(handlers, k, length).0 == rest.0;
        ForEachRemovesOnlyWrappers(after, k + 1, length);
        if h.OnceWrapper? {
          RemoveFirstCount(handlers, h);
        }
      }
    }
  }

  /** Dispatch keeps every listener registration and only ever removes handlers. */
  lemma DispatchKeepsListeners(registry: Registry, t: EventType)
    ensures var r := Dispatch(registry, t);
      && (forall h: Handler :: h.Listener? ==> multiset(HandlersFor(r.0, t))[h] == multiset(HandlersFor(registry, t))[h])
      && multiset(HandlersFor(r.0, t)) <= multiset(HandlersFor(registry, t))
  {
    if t in registry {
      ForEachRemovesOnlyWrappers(registry[t], 0, |registry[t]|);
      ForEachShrinks(registry[t], 0, |registry[t]|);
    }
  }

  /** The trailing wrapper runs and removes itself, and the iteration ends. */
  lemma ForEachLastWrapper(listeners: seq<Handler>, w: Handler)
    requires w.OnceWrapper? && w !in listeners
    ensures ForEach(listeners + [w], |listeners|, |listeners| + 1) == (listeners, [w])
  {
    var handlers, k := listeners + [w], |listeners|;
    assert handlers[k] == w;
    RemoveAppended(listeners, w);
    assert RemoveFirst(handlers, w) == listeners;
    assert ForEach(listeners, k + 1, k + 1) == (listeners, []);
    assert ForEach(handlers, k, k + 1) == (listeners, [w] + []);
    assert [w] + [] == [w];
  }

  lemma {:induction false} ForEachTrailingWrapper(listeners: seq<Handler>, w: Handler, k: nat)
    requires w.OnceWrapper?
    requires k <= |listeners|
    requires forall i :: 0 <= i < |listeners| ==> listeners[i].Listener?
    ensures ForEach(listeners + [w], k, |listeners| + 1) == (listeners, listeners[k..] + [w])
    decreases |listeners| - k
  {
    if k < |listeners| {
      var handlers, n := listeners + [w], |listeners| + 1;
      var h := handlers[k];
      assert h == listeners[k];
      var rest := ForEach(handlers, k + 1, n);
      assert ForEach(handlers, k, n) == (rest.0, [h] + rest.1);
      ForEachTrailingWrapper(listeners, w, k + 1);
      assert listeners[k..] == [h] + listeners[k + 1..];
      assert [h] + (listeners[k + 1..] + [w]) == listeners[k..] + [w];
    } else {
      assert w !in listeners;
      ForEachLastWrapper(listeners, w);
      assert listeners[k..] + [w] == [w];
    }
  }

  /**
   * A handler registered with `once` behind plain listeners runs on the next event of its
   * type, after them, and then is gone: a later event of that type runs only the listeners.
   */
  lemma OnceHandlerRunsOnce(s: Service, t: EventType, inner: Callback)
    requires forall i :: 0 <= i < |HandlersFor(s.handlers, t)| ==> HandlersFor(s.handlers, t)[i].Listener?
    ensures var listeners, w := HandlersFor(s.handlers, t), OnceWrapper(s.wrappers, inner);
      var first := Dispatch(Once(s, t, inner).handlers, t);
      && first.1 == listeners + [w]
      && HandlersFor(first.0, t) == listeners
      && Dispatch(first.0, t).1 == listeners
  {
    var listeners, w := HandlersFor(s.handlers, t), OnceWrapper(s.wrappers, inner);
    ForEachTrailingWrapper(listeners, w, 0);
    assert listeners[0..] == listeners;
    var first := Dispatch(Once(s, t, inner).handlers, t);
    DispatchRunsListenersInOrder(first.0, t);
  }

  /**
   * The live-array iteration skips the handler right after a once-wrapper: the wrapper
   * removes itself, the next handler moves into its slot, and iteration moves on past it.
   */
  lemma OnceWrapperSkipsNextHandler(t: EventType, w: Handler, next: Handler)
    requires w.OnceWrapper? && next != w
    ensures Dispatch(map[t := [w, next]], t) == (map[t := [next]], [w])
  {
    var handlers := [w, next];
    assert IndexOf(handlers, w) == 0;
    assert RemoveFirst(handlers, w) == [next];
    var h := handlers[0];
    var rest := ForEach(RemoveFirst(handlers, h), 1, 2);
    assert ForEach([next], 2, 2) == ([next], []);
    assert rest == ([next], []);
    assert [h] + rest.1 == [w];
    assert ForEach(handlers, 0, 2) == ([next], [w]);
    var registry := map[t := handlers];
    assert registry[t] == handlers && |registry[t]| == 2;
    assert registry[t := [next]] == map[t := [next]];
  }

  /**
   * A one-time handler runs at most once. In a valid state, every wrapper an event runs is
   * registered under no event type afterwards; its serial is below the counter, so no later
   * `once` can create it again; and the next event, whatever it is, does not run it.
   */
  lemma RanWrapperSkipsNextEvent(s: Service, source: Option<Frame>, event: Option<EventType>,
                                 laterSource: Option<Frame>, laterEvent: Option<EventType>)
    requires Valid(s)
    ensures var r := HandleMessage(s, source, event);
      forall h :: h in r.1 && h.OnceWrapper? ==>
        && h.serial < r.0.wrappers
        && (forall u :: h !in HandlersFor(r.0.handlers, u))
        && h !in HandleMessage(r.0, laterSource, laterEvent).1
  {
    var r := HandleMessage(s, source, event);
    if r.1 != [] {
      var t := event.value;
      assert t in s.handlers && r.0.handlers == Dispatch(s.handlers, t).0;
      DispatchedWrappersAreGone(s.handlers, t);
      forall h | h in r.1 && h.OnceWrapper?
        ensures h.serial < r.0.wrappers
        ensures forall u :: h !in HandlersFor(r.0.handlers, u)
        ensures h !in HandleMessage(r.0, laterSource, laterEvent).1
      {
        assert h in s.handlers[t];
        forall u
          ensures h !in HandlersFor(r.0.handlers, u)
        {
          if u != t && u in s.handlers {
            assert h !in s.handlers[u];
          }
        }
      }
    }
  }

  /** A new service is not ready: loading and exporting both fail. */
  lemma NewServiceNotReady(xml: string, format: string, resolve: nat)
    ensures LoadDiagram(NewService(), xml) == Failure(NotReady)
    ensures ExportDiagram(NewService(), Some(format), resolve) == Failure(NotReady)
  {
  }

  /** Once initialised and then forced ready by the timeout, loading posts the diagram to the iframe. */
  lemma ReadyServiceLoads(s: Service, frame: Frame, xml: string)
    ensures var r := Init(s, Some(frame));
      r.Success? && LoadDiagram(MarkReady(r.value), xml) == Success(Some(Posted(frame, Load(xml))))
  {
  }

  /**
   * The "init" event from the iframe makes an initialised service ready, so loading then
   * posts the diagram. This holds when the "init" list held only plain listeners before
   * `init`; the ready callback runs last, after them.
   */
  lemma InitEventMakesReady(s: Service, frame: Frame, xml: string)
    requires forall i :: 0 <= i < |HandlersFor(s.handlers, InitEvent)| ==> HandlersFor(s.handlers, InitEvent)[i].Listener?
    ensures var r := Init(s, Some(frame));
      && r.Success?
      && var m := HandleMessage(r.value, Some(frame), Some(InitEvent));
      && m.1 == HandlersFor(s.handlers, InitEvent) + [OnceWrapper(s.wrappers, SetReady)]
      && m.0.isReady
      && LoadDiagram(m.0, xml) == Success(Some(Posted(frame, Load(xml))))
  {
    var framed := s.(iframe := Some(frame));
    var w := OnceWrapper(s.wrappers, SetReady);
    OnceHandlerRunsOnce(framed, InitEvent, SetReady);
    var m := HandleMessage(Once(framed, InitEvent, SetReady), Some(frame), Some(InitEvent));
    assert m.1 == HandlersFor(s.handlers, InitEvent) + [w];
    assert w in m.1;
  }

  /** After `destroy` no event runs a handler, and loading and exporting fail. */
  lemma DestroyedServiceIsInert(s: Service, source: Option<Frame>, event: Option<EventType>, xml: string, format: string, resolve: nat)
    ensures HandleMessage(Destroy(s), source, event).1 == []
    ensures LoadDiagram(Destroy(s), xml).Failure?
    ensures ExportDiagram(Destroy(s), Some(format), resolve).Failure?
  {
  }
}

=== FILE: logger.dfy ===
/**
 * The front end's logger: a threshold chosen from the configured level name, and four
 * methods that print a tagged line exactly when their level is at or above the threshold.
 * The console is modelled as the line a method would print.
 */
module Logger {
  import opened Wrappers

  /** The severities of the four logging methods. */
  datatype Severity = Debug | Info | Warn | Error

  /** The console method each severity prints with. */
  datatype Console = ConsoleLog | ConsoleInfo | ConsoleWarn | ConsoleError

  datatype Line = Line(console: Console, text: string)

  /** The level names from least to most severe: a name's rank is its position here. */
  const LevelNames: seq<string> := ["debug", "info", "warn", "error", "none"]

  /** The `LOG_LEVELS` table: the five level names and their ranks; any other name is absent. */
  function LogLevel(name: string): (rank: Option<nat>)
    ensures rank.Some? <==> name in LevelNames
    ensures rank.Some? ==> rank.value < |LevelNames| && LevelNames[rank.value] == name
  {
    if name == "debug" then Some(0)
    else if name == "info" then Some(1)
    else if name == "warn" then Some(2)
    else if name == "error" then Some(3)
    else if name == "none" then Some(4)
    else None
  }

  /** The level name of each method's severity. */
  function Name(s: Severity): string {
    match s
    case Debug => "debug"
    case Info => "info"
    case Warn => "warn"
    case Error => "error"
  }

  /** The rank a method compares the threshold against: its own entry of `LOG_LEVELS`. */
  function Rank(s: Severity): (r: nat)
    ensures LogLevel(Name(s)) == Some(r)
  {
    match s
    case Debug => 0
    case Info => 1
    case Warn => 2
    case Error => 3
  }

  function Tag(s: Severity): string {
    match s
    case Debug => "[DEBUG] "
    case Info => "[INFO] "
    case Warn => "[WARN] "
    case Error => "[ERROR] "
  }

  function ConsoleOf(s: Severity): Console {
    match s
    case Debug => ConsoleLog
    case Info => ConsoleInfo
    case Warn => ConsoleWarn
    case Error => ConsoleError
  }

  /** A logger is its numeric threshold. */
  datatype Logger = Logger(level: nat)

  /** The constructor: the configured name's rank, or the rank of "info" when the name is unknown. */
  function NewLogger(configured: string): (lg: Logger)
    ensures lg.level <= 4
    ensures LogLevel(configured).Some? ==> lg.level == LogLevel(configured).value
    ensures LogLevel(configured).None? ==> lg.level == Rank(Info)
  {
    var known := LogLevel(configured);
    if known.Some? then Logger(known.value) else Logger(Rank(Info))
  }

  /** One of `debug`/`info`/`warn`/`error`: the printed line, or nothing when below the threshold. */
  function Emit(lg: Logger, s: Severity, message: string): (line: Option<Line>)
    ensures line.Some? <==> lg.level <= Rank(s)
    ensures line.Some? ==> line.value.console == ConsoleOf(s)
    ensures line.Some? ==> (&& |line.value.text| >= |Tag(s)|
                            && line.value.text[..|Tag(s)|] == Tag(s)
                            && line.value.text[|Tag(s)|..] == message)
  {
    if lg.level <= Rank(s) then Some(Line(ConsoleOf(s), Tag(s) + message)) else None
  }

  /** Which method printed a line, read from its tag. */
  function SeverityOfLine(text: string): Option<Severity> {
    if |text| >= 8 && text[..8] == "[DEBUG] " then Some(Debug)
    else if |text| >= 7 && text[..7] == "[INFO] " then Some(Info)
    else if |text| >= 7 && text[..7] == "[WARN] " then Some(Warn)
    else if |text| >= 8 && text[..8] == "[ERROR] " then Some(Error)
    else None
  }

  // ---------------------------------------------------------------------------
  // Properties

  /** The five levels are totally ordered: debug < info < warn < error < none, and names have distinct ranks. */
  lemma LevelsTotallyOrdered(a: string, b: string)
    ensures LogLevel("debug") == Some(0) && LogLevel("info") == Some(1)
    ensures LogLevel("warn") == Some(2) && LogLevel("error") == Some(3)
    ensures LogLevel("none") == Some(4)
    ensures LogLevel(a).Some? && LogLevel(a) == LogLevel(b) ==> a == b
  {
  }

  /** Configuring a method's own level name prints exactly that severity and every higher one. */
  lemma ConfiguredLevelPrintsFromThere(configured: Severity, s: Severity, message: string)
    ensures Emit(NewLogger(Name(configured)), s, message).Some? <==> Rank(configured) <= Rank(s)
  {
  }

  /** Emission is monotone: whatever prints at one severity also prints at every higher one. */
  lemma EmitMonotone(lg: Logger, s: Severity, t: Severity, m: string, n: string)
    requires Rank(s) <= Rank(t)
    requires Emit(lg, s, m).Some?
    ensures Emit(lg, t, n).Some?
  {
  }

  /** The "none" level silences all four methods. */
  lemma NoneSilencesAll(s: Severity, message: string)
    ensures Emit(NewLogger("none"), s, message).None?
  {
  }

  /** An unknown level name falls back to "info": debug is dropped and the rest print. */
  lemma UnknownLevelActsAsInfo(configured: string, s: Severity, message: string)
    requires LogLevel(configured).None?
    ensures Emit(NewLogger(configured), s, message) == Emit(NewLogger("info"), s, message)
  {
  }

  /** The tag of a printed line tells which method printed it. */
  lemma TagIdentifiesSeverity(lg: Logger, s: Severity, message: string)
    requires Emit(lg, s, message).Some?
    ensures SeverityOfLine(Emit(lg, s, message).value.text) == Some(s)
  {
    var text := Emit(lg, s, message).value.text;
    assert text[..|Tag(s)|] == Tag(s);
    assert text[1] == Tag(s)[1];
    match s
    case Debug =>
    case Info =>
      assert !(|text| >= 8 && text[..8] == "[DEBUG] ") by { assert text[1] == 'I'; }
    case Warn =>
      assert !(|text| >= 8 && text[..8] == "[DEBUG] ") by { assert text[1] == 'W'; }
      assert text[..7] != "[INFO] " by { assert text[1] == 'W'; }
    case Error =>
      assert text[..8] != "[DEBUG] " by { assert text[1] == 'E'; }
      assert text[..7] != "[INFO] " by { assert text[1] == 'E'; }
      assert text[..7] != "[WARN] " by { assert text[1] == 'E'; }
  }
}

=== FILE: wrappers.dfy ===
/** Absent values and thrown errors, the two failure shapes the modelled code uses. */
module Wrappers {

  /** Python's `None` and JavaScript's `null` become `None`; anything present is wrapped in `Some`. */
  datatype Option<T> = None | Some(value: T)

  /** A call that returns normally gives `Success`; a call that throws gives `Failure` with the message. */
  datatype Result<R, E> = Success(value: R) | Failure(error: E)
}
